=== FILE: README.md ===
# Circus runner: the game engine and the high-score list, in Dafny

This project models the core of a small browser side-scroller. The player's
square jumps over obstacles that scroll in from the right. The model covers
two parts of the Angular front end:

- **The game engine** (`GameEngineService`). It holds the per-level
  configuration table and the clamp that `setLevel` applies. It keeps the
  running flag of `start`/`stop` and implements `reset`. Each animation
  frame runs one tick of `update`, in this order:
  1. Obstacle spawning, timed by a spawn timer and a random delay.
  2. The jump, which fires only from the ground.
  3. Gravity, with the player clamped back onto the ground line.
  4. Obstacle motion to the left, dropping obstacles once they reach x ≤ -50.
  5. The first-hit AABB collision scan, which costs a life and may end the game.
  6. The time-based score increment.
- **The high-score list** (`HighScoreService`). `getScores` reads the
  stored list and falls back to the empty list. `saveScore` appends the new
  entry, sorts by score (highest first, stable), and keeps the first 20.

All state is immutable. An `Engine` value holds everything the service keeps
between ticks, and each operation is a pure function from one state to the
next. The host environment enters the model as parameters:

- The elapsed time `dt` of a frame.
- The keys held at that frame. The jump intent is derived from them.
- Every draw of the uniform random generator, as a real in [0, 1). `Math.random`
  is never called.
- What local storage holds, as the `Stored` datatype.

A tick returns a `Tick`: the new state, plus the score carried by the
`game:over` event if that event fired. `GameLoop.RunFrames` chains ticks over
a sequence of frames, the way the `requestAnimationFrame` callback does, and
stops once the engine is no longer running.

Module layout:

| module | file | contents |
|---|---|---|
| `Options` | options.dfy | `Option` |
| `Geometry` | geometry.dfy | rectangles and the AABB test |
| `Levels` | levels.dfy | the level table, the fallback to level 1, the `setLevel` clamp |
| `Random` | random.dfy | `rand(min, max)` over an injected draw |
| `Physics` | physics.dfy | the player, jump, gravity integration, the flight-height invariant |
| `Obstacles` | obstacles.dfy | spawning geometry, shift and eviction, the first-hit scan |
| `Input` | input.dfy | the held-key set and the jump intent |
| `GameEngine` | engine.dfy | engine state, `reset`, `setLevel`, `start`/`stop`, hit handling, `update` |
| `GameLoop` | loop.dfy | runs of frames: validity, game-over once, climbing scores |
| `HighScores` | high_scores.dfy | stable insertion sort, top-20 ranking, `getScores`/`saveScore` |

Some behaviours of the code are easy to miss. The model keeps each of them:

- **dt is not clamped.** The loop passes `t - last` to `update` unchanged
  (game-engine.service.ts:134-136), so a frame time can be negative. The
  model accepts any `dt`. Score monotonicity (`GameEngine.ScoreNeverDecreases`,
  `GameLoop.RunScoresClimb`) is stated for `dt ≥ 0`.
- **The level can be fractional.** `setLevel` clamps but does not round
  (:119), so a request of 2.5 is stored as 2.5. That is not a key of the
  table, and `levelCfgs[level] || levelCfgs[1]` (:189) then gives level 1's
  configuration (`Levels.FractionalLevelRunsAsLevelOne`).
- **The spawn delay range includes its upper end.** `rand(min, max)`
  (:313-315) can return max as well as min (`Random.RandReachesEveryValue`).
- **An empty field can still cost a life on a narrow canvas.** An obstacle
  spawned in a tick is moved and tested in that same tick (:196-222). It
  starts at width + 20 − speed and the player's right edge is at 112, so on a
  canvas narrower than about 97 px it can hit the player at once.
  `GameEngine.EmptyFieldKeepsLives` therefore requires a width of at least 100.
- **Lives can go negative.** `start` does not call `reset` (:125-126), so
  starting again after a game over and getting hit takes lives to -1
  (:248). The invariant `GameEngine.Valid` includes "a running engine has a
  life left". `GameEngine.StartKeepsValid` needs `lives ≥ 1`.
- **An obstacle leaves on the tick it reaches x ≤ -50.** One from x = 40 at
  speed 4 is at -48 after 22 ticks and would be at -52 after 23, so the
  filter at :219 drops it on the 23rd
  (`Obstacles.ObstacleFromFortyLeavesOnTickTwentyThree`).

Ties in the high-score list keep insertion order. That is because
`Array.prototype.sort` is stable (ECMAScript 2019 and later). The model's
`SortDesc` is a stable insertion sort, and `HighScores.TheStableSort` shows
that it is the only stable descending sort.

## Model

Source paths are relative to the repository root.
`game-engine.service.ts` and `high-score.service.ts` both sit in
`angular_frontend/src/app/services/`.

| member | source | states |
|---|---|---|
| `Geometry.AabbSymmetric` | angular_frontend/src/app/services/game-engine.service.ts:266-277 | The collision test does not depend on the order of the two rectangles. |
| `Geometry.AabbMeansSharedInterior` | angular_frontend/src/app/services/game-engine.service.ts:266-277 | For rectangles of positive size, the test holds exactly when some point lies strictly inside both (both directions). |
| `Geometry.EdgeContactIsNoHit` | angular_frontend/src/app/services/game-engine.service.ts:276 | Rectangles that only share an edge do not collide, because the inequalities are strict. |
| `Geometry.OffsetSquaresHit` | angular_frontend/src/app/services/game-engine.service.ts:276 | Two 10×10 squares offset by (5, 5) collide. |
| `Geometry.Aabb` | angular_frontend/src/app/services/game-engine.service.ts:266-277 | Two rectangles can only collide when their combined width and combined height are both positive. |
| `Random.Rand` | angular_frontend/src/app/services/game-engine.service.ts:313-315 | For a draw in [0, 1) and min ≤ max, the result lies in [min, max], both ends included. |
| `Random.RandReachesEveryValue` | angular_frontend/src/app/services/game-engine.service.ts:313-315 | Every integer of [min, max], max included, is produced by some draw in [0, 1). |
| `Random.RandMonotone` | angular_frontend/src/app/services/game-engine.service.ts:313-315 | A larger draw never gives a smaller value. |
| `Random.RandUniform` | angular_frontend/src/app/services/game-engine.service.ts:313-315 | The draws split evenly: for a draw in [0, 1), the value is k exactly when the draw lies in [(k − min)/n, (k − min + 1)/n), with n = max − min + 1. So each of the n values gets an interval of width 1/n. |
| `Levels.Lookup` | angular_frontend/src/app/services/game-engine.service.ts:35-39 | The table has an entry exactly for levels 1, 2 and 3: level 1 gets speed 3, spawn 1200-2000, gravity 0.6, jump -11; level 2 gets 4, 900-1500, 0.7, -12.5; level 3 gets 5.2, 700-1200, 0.75, -13. |
| `Levels.ConfigOf` | angular_frontend/src/app/services/game-engine.service.ts:189 | The configuration in force is the table entry when there is one, and level 1's otherwise. |
| `Levels.TableIsPhysical` | angular_frontend/src/app/services/game-engine.service.ts:35-39 | Every level has positive speed, a spawn range with min ≤ max, gravity in [0.6, 0.75], and an upward jump of at most 13 per tick. |
| `Levels.DifficultyIncreases` | angular_frontend/src/app/services/game-engine.service.ts:35-39 | From level 1 to level 3: speed, gravity and jump strength increase, and both spawn bounds decrease. |
| `Levels.ClampLevel` | angular_frontend/src/app/services/game-engine.service.ts:117-120 | The result always lies in [1, 3]. 0 and NaN become 1. A finite value in range is kept. Values above 3 become 3 and values below 1 become 1. An infinite value becomes the nearer bound. |
| `Levels.ClampIdempotent` | angular_frontend/src/app/services/game-engine.service.ts:119 | Clamping an already clamped level changes nothing. |
| `Levels.ClampMonotone` | angular_frontend/src/app/services/game-engine.service.ts:119 | Clamping preserves the order of finite requests. |
| `Levels.FractionalLevelRunsAsLevelOne` | angular_frontend/src/app/services/game-engine.service.ts:119 | A request of 2.5 is stored as 2.5. That level has no table entry, so it runs with level 1's configuration. |
| `Physics.StandingOk` | angular_frontend/src/app/services/game-engine.service.ts:177-179 | The standing player (on the ground, at rest) satisfies the player invariant. |
| `Physics.Jump` | angular_frontend/src/app/services/game-engine.service.ts:231-236 | From the ground, the jump sets the level's jump velocity and leaves the ground. In the air it changes nothing. |
| `Physics.Integrate` | angular_frontend/src/app/services/game-engine.service.ts:209-215 | The player never ends below the standing line. Above it, velocity and position follow one gravity step. Reaching or passing it gives exactly the standing player. |
| `Physics.JumpKeepsOk` | angular_frontend/src/app/services/game-engine.service.ts:231-236 | A jump from a valid state leaves enough room to climb without leaving the top of the playfield. |
| `Physics.IntegrateKeepsOk` | angular_frontend/src/app/services/game-engine.service.ts:209-215 | A gravity step keeps the player within [0, ground − height]. It also keeps the climbing bound, for every gravity of the table. |
| `Physics.MoveKeepsOk` | angular_frontend/src/app/services/game-engine.service.ts:205-215 | The jump stage followed by gravity, whether or not jump is held, keeps the player valid. |
| `Physics.HeldJumpInAirIsGravityOnly` | angular_frontend/src/app/services/game-engine.service.ts:231-236 | Holding jump in the air gives the same tick as not holding it. |
| `Physics.LevelTwoTakeOff` | angular_frontend/src/app/services/game-engine.service.ts:206-215 | Taking off from the ground at level 2 gives vy = -11.8 after the tick's gravity, with the player airborne. |
| `Obstacles.Spawned` | angular_frontend/src/app/services/game-engine.service.ts:196-202 | A new obstacle appears 20 px past the right edge, with its top 24 px above the ground. Its width is `rand(18, 32)` of the second draw and its height that of the third, so both are integers in [18, 32]. |
| `Obstacles.Evict` | angular_frontend/src/app/services/game-engine.service.ts:219 | Eviction never grows the collection, and every survivor lies right of x = -50. |
| `Obstacles.EvictMembers` | angular_frontend/src/app/services/game-engine.service.ts:219 | An obstacle survives eviction exactly when it was present and lies right of x = -50. |
| `Obstacles.EvictAppend` | angular_frontend/src/app/services/game-engine.service.ts:219 | Eviction filters each obstacle on its own: it distributes over concatenation. |
| `Obstacles.Advance` | angular_frontend/src/app/services/game-engine.service.ts:218-219 | One tick of motion never grows the collection, and leaves every obstacle right of x = -50. |
| `Obstacles.AdvanceMembers` | angular_frontend/src/app/services/game-engine.service.ts:218-219 | The survivors of a tick are exactly the old obstacles moved left by the speed that are still right of -50. |
| `Obstacles.AdvanceAppend` | angular_frontend/src/app/services/game-engine.service.ts:218-219 | Motion keeps the collection's order: it distributes over concatenation. |
| `Obstacles.AdvanceOne` | angular_frontend/src/app/services/game-engine.service.ts:218-219 | A single obstacle moves left by the speed, and is dropped if that takes it to x ≤ -50. |
| `Obstacles.LoneObstacleTrajectory` | angular_frontend/src/app/services/game-engine.service.ts:218-219 | After n ticks a lone obstacle has moved n·speed to the left, or is gone once that reaches x ≤ -50. |
| `Obstacles.ObstacleFromFortyLeavesOnTickTwentyThree` | angular_frontend/src/app/services/game-engine.service.ts:218-219 | An obstacle from x = 40 at speed 4 is at -48 after 22 ticks and gone after 23. |
| `Obstacles.FirstHit` | angular_frontend/src/app/services/game-engine.service.ts:238-245 | The scan reports the first overlapping obstacle in collection order (none before it overlaps), or reports none exactly when no obstacle overlaps. |
| `Input.KeyDown` | angular_frontend/src/app/services/game-engine.service.ts:77-78 | Key-down adds exactly the key. Jump is then held exactly when it already was or the key is a jump key. |
| `Input.KeyUp` | angular_frontend/src/app/services/game-engine.service.ts:83-84 | Key-up removes exactly the key. Jump stays held exactly when the other jump key is still down. |
| `Input.OtherKeysIgnored` | angular_frontend/src/app/services/game-engine.service.ts:206 | Keys other than space and ArrowUp never change the jump intent. |
| `Input.PressReleaseRoundTrip` | angular_frontend/src/app/services/game-engine.service.ts:78-84 | Pressing and then releasing a key that was not held restores the key set. |
| `Input.JumpHeld` | angular_frontend/src/app/services/game-engine.service.ts:206 | Jump is held exactly when some held key is a jump key (space or ArrowUp). |
| `GameEngine.InitialIsValid` | angular_frontend/src/app/services/game-engine.service.ts:22-42 | The engine as constructed satisfies the state invariant. |
| `GameEngine.Reset` | angular_frontend/src/app/services/game-engine.service.ts:175-186 | Reset restores the standing player, an empty field, score 0, 3 lives and timer 0. The spawn delay is `rand` of the reset's draw over the current level's range, so it lies within that range. Level, width and the running flag are kept. |
| `GameEngine.ResetIsValid` | angular_frontend/src/app/services/game-engine.service.ts:175-186 | A reset at a clamped level gives a valid engine. |
| `GameEngine.ResetIdempotent` | angular_frontend/src/app/services/game-engine.service.ts:175-186 | With the same draw, two resets equal one. |
| `GameEngine.SetLevel` | angular_frontend/src/app/services/game-engine.service.ts:117-120 | setLevel stores the clamped request: a request in [1, 3] is kept, one above 3 gives 3, one below 1 gives 1, 0 or NaN give 1, and an infinite one gives the nearer bound. Nothing else changes. |
| `GameEngine.SetLevelKeepsValid` | angular_frontend/src/app/services/game-engine.service.ts:117-120 | setLevel preserves the state invariant. |
| `GameEngine.Start` | angular_frontend/src/app/services/game-engine.service.ts:125-126 | start sets the running flag, is a no-op when already running, and changes nothing else. |
| `GameEngine.Stop` | angular_frontend/src/app/services/game-engine.service.ts:167 | stop clears the running flag and changes nothing else. |
| `GameEngine.StartStopIdempotent` | angular_frontend/src/app/services/game-engine.service.ts:125-167 | Starting twice equals starting once, and stopping twice equals stopping once. |
| `GameEngine.StartKeepsValid` | angular_frontend/src/app/services/game-engine.service.ts:125-126 | Starting a valid engine that has a life left keeps it valid. |
| `GameEngine.StopKeepsValid` | angular_frontend/src/app/services/game-engine.service.ts:167 | Stopping preserves the state invariant. |
| `GameEngine.ScoreGain` | angular_frontend/src/app/services/game-engine.service.ts:225 | A tick earns the greatest integer not above dt·0.02·speed, which is never negative for dt ≥ 0. |
| `GameEngine.SpawnStep` | angular_frontend/src/app/services/game-engine.service.ts:191-203 | When the timer passes the delay: the timer restarts at 0, and the new delay is `rand` of the first draw over the level's range (so within it). Exactly one obstacle is appended at the end. Otherwise only the timer grows. No other field changes. |
| `GameEngine.HandleHit` | angular_frontend/src/app/services/game-engine.service.ts:247-260 | A hit costs exactly one life and puts the player back standing on an empty field. The game-over event fires exactly when no life is left. It then carries the current score and the engine stops. |
| `GameEngine.Collide` | angular_frontend/src/app/services/game-engine.service.ts:238-245 | A life is lost exactly when some obstacle overlaps the player, and then exactly once, as by HandleHit. Otherwise the state is unchanged and no game-over fires. |
| `GameEngine.Move` | angular_frontend/src/app/services/game-engine.service.ts:191-219 | The spawning stage's timer, delay and collection are used. The obstacles advance by the level's speed. The player is the jump step (when requested) followed by the gravity step, and stays above the ground line. Score, lives, level, width and the running flag are unchanged. |
| `GameEngine.Update` | angular_frontend/src/app/services/game-engine.service.ts:188-229 | The level and width are kept. The spawn timer and delay are those of the spawning stage. A life is lost exactly when the first-hit scan finds an overlap between the player after jump and gravity and the obstacles after spawning and motion. Without a loss the player is that moved player and the obstacles are those moved obstacles. With a loss the player stands on an empty field. The score grows by the tick's gain. Game-over fires exactly when the last life goes, carries the score before this tick's gain, and stops the engine. |
| `GameEngine.UpdateKeepsValid` | angular_frontend/src/app/services/game-engine.service.ts:188-229 | A tick of a running valid engine leaves a valid engine: level clamped, player inside the playfield, lives in [0, 3], and running implies a life left. |
| `GameEngine.ScoreNeverDecreases` | angular_frontend/src/app/services/game-engine.service.ts:225 | With dt ≥ 0, a tick never lowers the score. |
| `GameEngine.EmptyFieldKeepsLives` | angular_frontend/src/app/services/game-engine.service.ts:191-245 | With no obstacle on the field, a tick costs no life and fires no game-over. Any obstacle spawned in the same tick starts out of reach. |
| `GameEngine.LevelTwoJumpTick` | angular_frontend/src/app/services/game-engine.service.ts:205-215 | At level 2, standing with jump held on an empty field, one tick gives vy = -11.8 with the player airborne. |
| `GameLoop.RunFrames` | angular_frontend/src/app/services/game-engine.service.ts:133-141 | Each frame runs one tick and gives one (score, lives) report, the first being the state after the first tick. A run that ends still running has processed every frame. A stopped engine runs no frame at all. |
| `GameLoop.RunFramesOne` | angular_frontend/src/app/services/game-engine.service.ts:133-141 | A single frame does nothing to a stopped engine. A running engine runs exactly one tick, reports that tick's (score, lives), and records its game-over score if one fired. |
| `GameLoop.RunFramesAppend` | angular_frontend/src/app/services/game-engine.service.ts:133-141 | Running a + b is running a, then b from the state a leaves, with the reports and game-over scores concatenated. Together with RunFramesOne this fixes the run of every frame sequence. |
| `GameLoop.Step` | angular_frontend/src/app/services/game-engine.service.ts:134-136 | A frame's tick requests the jump exactly when space or ArrowUp is held. The request only takes effect from the ground. |
| `GameLoop.RunKeepsValid` | angular_frontend/src/app/services/game-engine.service.ts:133-141 | A run from a valid engine ends valid, and every reported lives value lies in [0, 3]. |
| `GameLoop.RunGameOver` | angular_frontend/src/app/services/game-engine.service.ts:247-260 | A run fires at most one game-over. A running engine ends stopped exactly when it fired, and then with 0 lives. |
| `GameLoop.RunScoresClimb` | angular_frontend/src/app/services/game-engine.service.ts:133-137 | With dt ≥ 0 in every frame, the reported scores never go down and lie between the start and final score. |
| `GameLoop.NoTickAfterStop` | angular_frontend/src/app/services/game-engine.service.ts:138 | Once stopped, frames neither change the engine nor report anything. |
| `GameLoop.GameOverOnce` | angular_frontend/src/app/services/game-engine.service.ts:253-258 | A running game that ends has fired exactly one game-over and has no life left. |
| `HighScores.InsertAdds` | angular_frontend/src/app/services/high-score.service.ts:39 | One insertion step of the sort adds exactly the new entry. |
| `HighScores.Insert` | angular_frontend/src/app/services/high-score.service.ts:39 | One insertion step of the sort makes the list exactly one longer. |
| `HighScores.InsertSplices` | angular_frontend/src/app/services/high-score.service.ts:39 | Insertion splices the entry in after the leading entries scoring at least as much, and before the first entry scoring less. |
| `HighScores.InsertSorted` | angular_frontend/src/app/services/high-score.service.ts:39 | Inserting into a list sorted highest first keeps it sorted. |
| `HighScores.InsertWithScore` | angular_frontend/src/app/services/high-score.service.ts:39 | Insertion puts the entry after all stored entries of its score, and leaves every other score group unchanged. |
| `HighScores.SortDesc` | angular_frontend/src/app/services/high-score.service.ts:39 | The sort is a permutation of its input and is sorted highest first. |
| `HighScores.SortStable` | angular_frontend/src/app/services/high-score.service.ts:39 | Within each score, the sort keeps the input order. |
| `HighScores.TheStableSort` | angular_frontend/src/app/services/high-score.service.ts:39 | Any list that is sorted highest first and keeps every score group in input order equals the sort's output. |
| `HighScores.SortOfSorted` | angular_frontend/src/app/services/high-score.service.ts:39 | Sorting an already sorted list changes nothing. |
| `HighScores.Rank` | angular_frontend/src/app/services/high-score.service.ts:37-42 | The written list has min(n + 1, 20) entries. It is sorted highest first, contains only entries from the old list plus the new one, and is a prefix of the full sorted list. |
| `HighScores.RankDropsOnlyLowest` | angular_frontend/src/app/services/high-score.service.ts:39-42 | Every kept entry scores at least as much as every dropped one. |
| `HighScores.RankTiesKeepInsertionOrder` | angular_frontend/src/app/services/high-score.service.ts:38-39 | A new entry that ties with stored ones is placed after all of them. |
| `HighScores.RankNewBest` | angular_frontend/src/app/services/high-score.service.ts:37-42 | For a stored list sorted highest first, an entry beating every stored score goes to the top and the rest follow in their old order. |
| `HighScores.RisingSavesKeepTop` | angular_frontend/src/app/services/high-score.service.ts:35-44 | Saving entries of strictly rising scores into an empty store keeps the last 20 of them, newest (highest) first. |
| `HighScores.TwentyFiveRisingSaves` | angular_frontend/src/app/services/high-score.service.ts:35-44 | Twenty-five saves with scores 1..25 leave exactly scores 25 down to 6. |
| `HighScores.GetScores` | angular_frontend/src/app/services/high-score.service.ts:21-32 | A stored array is returned as is. No storage, no value, unparsable text or a non-array all give the empty list. |
| `HighScores.SaveScore` | angular_frontend/src/app/services/high-score.service.ts:35-44 | Nothing is written exactly when there is no storage. Otherwise the ranked list is written. When the stored list was unusable, that list is just the new entry. |
| `HighScores.SaveThenGet` | angular_frontend/src/app/services/high-score.service.ts:35-44 | Reading back a save gives at most 20 entries, highest first, all taken from the old list and the new entry. When fewer than 20 were stored, the new entry is among them. |

## Left out

- Drawing (`draw`, lines 279-311) is a pure consumer of the state and changes nothing, so it is not modelled.
- `attachCanvas`, `bindInputs` and `resize` are not modelled: binding a canvas, focusing it on click, and reading the DOM are host work.
  - The playfield width is a field of the state.
  - The height is fixed at 400, and the ground at floor(400 · 0.85) = 340.
- Scheduling is not modelled: `requestAnimationFrame`, the 16 ms `setTimeout` fallback, `cancelAnimationFrame`, `NgZone`, and the clock readings that give `dt`.
  - Each frame's `dt` is a parameter.
  - The loop is a sequence of frames.
- The `game:setLevel` listener only converts its payload with `Number` before calling `setLevel`. That conversion is modelled as the `Num` datatype.
- Events are returned, not dispatched. The `game:over` `CustomEvent` is the `gameOver` field of a tick, and the shell callback's `(score, lives)` pairs are the `reports` of a run.
- `Math.random` is replaced by draws passed in as arguments. `Random.Rand` is stated for draws in [0, 1).
- Key events are not modelled as engine state. The held-key set is a per-frame input, and key-down/key-up are functions on that set.
- IEEE-754 double rounding is not modelled: positions, velocities and times are exact reals. For example, -12.5 + 0.7 is exactly -11.8 in the model.
- The obstacle colour (:201, read by `draw` at :301) and the player colour (:26, read at :296) are not modelled, because nothing modelled reads them.
- Local storage, JSON parsing and serialisation are left out.
  - `Stored` lists the outcomes of reading the key.
  - `SaveScore` returns the list that would be written.
  - Stored arrays are assumed to hold entries with integer scores. The code does not validate them: for an element whose score is missing or not a number, the comparator `b.score - a.score` (high-score.service.ts:39) gives NaN, and the sort then treats the pair as equal. `AnArray` cannot hold such elements.
- The Angular components (game canvas, level selector, scoreboard) and the server entry point only wire these services to the page, so they are not modelled.
- GameEngine.EmptyFieldKeepsLives: requires a playfield at least 100 px wide, which is weaker than "an empty field never costs a life". The reason is that on a narrower canvas an obstacle spawned in the same tick can reach the player.
- GameEngine.StartKeepsValid: requires a life left, because `start` does not reset and so can run an engine with 0 lives.
- GameEngine.ScoreNeverDecreases: stated for dt ≥ 0 only, because the code does not clamp `dt`.

=== FILE: engine.dfy ===
/**
 * The engine state and its operations: reset, level choice, the running
 * flag of start/stop, hit handling and the per-tick update.
 *
 * Randomness is injected: every draw the code takes from the host's uniform
 * generator is an argument in [0, 1). The host clock is injected as `dt`,
 * and the jump intent as a boolean read from the held keys.
 */
module GameEngine {
  import opened Options
  import opened Geometry
  import opened Levels
  import opened Random
  import opened Physics
  import opened Obstacles

  /** Width of the playfield when the canvas reports none. */
  const DefaultWidth: real := 800.0
  const StartLives: int := 3
  /** The spawn delay before the first reset draws one. */
  const FirstSpawnDelay: int := 1200
  /** Score per millisecond per unit of level speed. */
  const ScoreRate: real := 0.02

  /** Everything the engine keeps between ticks. */
  datatype Engine = Engine(
    width: real,
    player: Player,
    obstacles: seq<Rect>,
    score: int,
    lives: int,
    level: real,
    running: bool,
    spawnTimer: real,
    nextSpawnDelay: int)

  /** The uniform draws a spawning tick consumes, in the order the code takes them. */
  datatype Draws = Draws(delay: real, width: real, height: real)

  /** The outcome of a tick: the new state, and the score of the game-over event if one fired. */
  datatype Tick = Tick(engine: Engine, gameOver: Option<int>)

  predicate ValidDraw(r: real) {
    0.0 <= r < 1.0
  }

  predicate ValidDraws(d: Draws) {
    ValidDraw(d.delay) && ValidDraw(d.width) && ValidDraw(d.height)
  }

  /** The engine as constructed, before a canvas is attached. */
  const Initial := Engine(DefaultWidth, Player(0.0, 0.0, false), [], 0, StartLives, 1.0, false, 0.0, FirstSpawnDelay)

  /**
   * The state invariant: the level is clamped, the player is valid, lives
   * are within [0, 3], and a running engine has a life left.
   */
  predicate Valid(e: Engine) {
    && 1.0 <= e.level <= 3.0
    && PlayerOk(e.player)
    && 0 <= e.lives <= StartLives
    && (e.running ==> e.lives >= 1)
  }

  lemma InitialIsValid()
    ensures Valid(Initial)
  {
  }

  /**
   * A new game: the player stands on the ground, the field is empty, score
   * and lives start over, and the first spawn delay is drawn from the
   * current level's range. The level and the running flag are kept.
   */
  function Reset(e: Engine, r: real): (e': Engine)
    ensures e'.player == Standing && e'.obstacles == []
    ensures e'.score == 0 && e'.lives == StartLives && e'.spawnTimer == 0.0
    ensures e'.nextSpawnDelay == Rand(r, ConfigOf(e.level).spawnMin, ConfigOf(e.level).spawnMax)
    ensures ValidDraw(r) ==> ConfigOf(e.level).spawnMin <= e'.nextSpawnDelay <= ConfigOf(e.level).spawnMax
    ensures e'.level == e.level && e'.running == e.running && e'.width == e.width
  {
    var c := ConfigOf(e.level);
    e.(player := Standing, obstacles := [], score := 0, lives := StartLives, spawnTimer := 0.0,
       nextSpawnDelay := Rand(r, c.spawnMin, c.spawnMax))
  }

  /** A reset of a valid-level engine gives a valid engine. */
  lemma ResetIsValid(e: Engine, r: real)
    requires 1.0 <= e.level <= 3.0
    ensures Valid(Reset(e, r))
  {
    StandingOk();
  }

  /** Resetting twice with the same draw is resetting once. */
  lemma ResetIdempotent(e: Engine, r: real)
    ensures Reset(Reset(e, r), r) == Reset(e, r)
  {
  }

  /** `setLevel`: the clamped level is stored, nothing else changes. */
  function SetLevel(e: Engine, n: Num): (e': Engine)
    ensures 1.0 <= e'.level <= 3.0
    ensures e'.(level := e.level) == e
    ensures n.Finite? && 1.0 <= n.value <= 3.0 ==> e'.level == n.value
    ensures !Truthy(n) ==> e'.level == 1.0
    ensures n.Finite? && n.value > 3.0 ==> e'.level == 3.0
    ensures n.Finite? && n.value < 1.0 ==> e'.level == 1.0
    ensures n.Infinity? ==> e'.level == (if n.negative then 1.0 else 3.0)
    ensures e'.level == ClampLevel(n)
  {
    e.(level := ClampLevel(n))
  }

  lemma SetLevelKeepsValid(e: Engine, n: Num)
    requires Valid(e)
    ensures Valid(SetLevel(e, n))
  {
  }

  /** `start`: sets the running flag; a no-op when already running. */
  function Start(e: Engine): (e': Engine)
    ensures e'.running
    ensures e.running ==> e' == e
    ensures e'.(running := e.running) == e
  {
    if e.running then e else e.(running := true)
  }

  /** `stop`: clears the running flag, whatever it was; nothing else changes. */
  function Stop(e: Engine): (e': Engine)
    ensures !e'.running
    ensures e'.(running := e.running) == e
  {
    e.(running := false)
  }

  lemma StartStopIdempotent(e: Engine)
    ensures Start(Start(e)) == Start(e)
    ensures Stop(Stop(e)) == Stop(e)
  {
  }

  /** Starting keeps the invariant only when a life is left (start does not reset). */
  lemma StartKeepsValid(e: Engine)
    requires Valid(e) && e.lives >= 1
    ensures Valid(Start(e))
  {
  }

  lemma StopKeepsValid(e: Engine)
    requires Valid(e)
    ensures Valid(Stop(e))
  {
  }

  /**
   * The score earned by a tick: the whole part of dt * 0.02 * speed, so the
   * rate follows elapsed time rather than the frame rate.
   */
  function ScoreGain(dt: real, speed: real): (g: int)
    ensures g as real <= dt * ScoreRate * speed < g as real + 1.0
    ensures dt >= 0.0 && speed >= 0.0 ==> g >= 0
  {
    var x := dt * ScoreRate * speed;
    assert dt >= 0.0 && speed >= 0.0 ==> x >= 0.0 by {
      if dt >= 0.0 && speed >= 0.0 {
        assert dt * ScoreRate >= 0.0;
      }
    }
    x.Floor
  }

  /** The spawn timer has run past the current delay once `dt` is added. */
  predicate SpawnDue(e: Engine, dt: real) {
    e.spawnTimer + dt > e.nextSpawnDelay as real
  }

  /**
   * The spawning stage of a tick. When due, the timer restarts at zero, a new
   * delay is drawn, and one obstacle is appended just beyond the right edge;
   * otherwise the timer only accumulates `dt`.
   */
  function SpawnStep(e: Engine, dt: real, c: LevelConfig, d: Draws): (e': Engine)
    ensures e'.(spawnTimer := e.spawnTimer, nextSpawnDelay := e.nextSpawnDelay, obstacles := e.obstacles) == e
    ensures SpawnDue(e, dt) ==>
      && e'.spawnTimer == 0.0
      && |e'.obstacles| == |e.obstacles| + 1
      && e'.obstacles[..|e.obstacles|] == e.obstacles
      && e'.obstacles[|e.obstacles|] == Spawned(e.width, d.width, d.height)
      && e'.nextSpawnDelay == Rand(d.delay, c.spawnMin, c.spawnMax)
      && (ValidDraws(d) && c.spawnMin <= c.spawnMax ==> c.spawnMin <= e'.nextSpawnDelay <= c.spawnMax)
    ensures !SpawnDue(e, dt) ==>
      && e'.spawnTimer == e.spawnTimer + dt
      && e'.obstacles == e.obstacles
      && e'.nextSpawnDelay == e.nextSpawnDelay
  {
    if SpawnDue(e, dt) then
      e.(spawnTimer := 0.0,
         nextSpawnDelay := Rand(d.delay, c.spawnMin, c.spawnMax),
         obstacles := e.obstacles + [Spawned(e.width, d.width, d.height)])
    else
      e.(spawnTimer := e.spawnTimer + dt)
  }

  /**
   * Hit handling: one life is lost, the player is put back on the ground and
   * the field is cleared. When no life is left the engine stops and the
   * game-over event carries the current score.
   */
  function HandleHit(e: Engine): (t: Tick)
    ensures t.engine.lives == e.lives - 1
    ensures t.engine.player == Standing && t.engine.obstacles == []
    ensures t.gameOver.Some? <==> t.engine.lives <= 0
    ensures t.gameOver.Some? ==> t.gameOver.value == e.score && !t.engine.running
    ensures t.gameOver.None? ==> t.engine.running == e.running
    ensures t.engine.(lives := e.lives, player := e.player, obstacles := e.obstacles, running := e.running) == e
  {
    var hit := e.(lives := e.lives - 1, player := Standing, obstacles := []);
    if hit.lives <= 0 then Tick(Stop(hit), Some(e.score)) else Tick(hit, None)
  }

  /**
   * The collision stage: a life is lost exactly when some obstacle overlaps
   * the player, and only once however many do; otherwise nothing changes.
   */
  function Collide(e: Engine): (t: Tick)
    ensures t.engine.lives == e.lives - 1 <==> exists i :: 0 <= i < |e.obstacles| && Aabb(Box(e.player), e.obstacles[i])
    ensures t.engine.lives != e.lives - 1 ==> t == Tick(e, None)
    ensures t.engine.lives == e.lives - 1 ==> t == HandleHit(e)
  {
    if FirstHit(Box(e.player), e.obstacles).Some? then HandleHit(e) else Tick(e, None)
  }

  /**
   * The state after the spawning, jump, gravity and obstacle-motion stages of
   * a tick: the spawning stage's timer, delay and collection, the player moved
   * by the level's physics, the collection advanced by the level's speed;
   * score, lives, level, width and the running flag are untouched.
   */
  function Move(e: Engine, dt: real, jump: bool, d: Draws): (m: Engine)
    ensures var c := ConfigOf(e.level);
            var s := SpawnStep(e, dt, c, d);
      && m.spawnTimer == s.spawnTimer && m.nextSpawnDelay == s.nextSpawnDelay
      && m.obstacles == Advance(s.obstacles, c.speed)
      && m.player == Integrate(if jump then Jump(e.player, c) else e.player, c)
      && m.player.y <= StandY
      && (jump && e.player.onGround ==> m.player.y < StandY ==> m.player.vy == c.jumpVel + c.gravity)
      && m.(player := e.player, obstacles := e.obstacles, spawnTimer := e.spawnTimer, nextSpawnDelay := e.nextSpawnDelay) == e
  {
    var c := ConfigOf(e.level);
    var s := SpawnStep(e, dt, c, d);
    s.(player := Integrate(if jump then Jump(s.player, c) else s.player, c), obstacles := Advance(s.obstacles, c.speed))
  }

  /**
   * One tick: spawn, jump, gravity, obstacle motion, collision, then score.
   * A life is lost exactly when the moved player overlaps a moved obstacle;
   * then the player stands on an empty field, otherwise it keeps its moved
   * position. A game-over reports the score from before this tick's
   * increment, which is still added to the state.
   */
  function Update(e: Engine, dt: real, jump: bool, d: Draws): (t: Tick)
    ensures t.engine.level == e.level && t.engine.width == e.width
    ensures t.engine.player.y <= StandY
    ensures forall i :: 0 <= i < |t.engine.obstacles| ==> t.engine.obstacles[i].x > EvictX
    ensures e.lives - 1 <= t.engine.lives <= e.lives
    ensures var c := ConfigOf(e.level);
            var s := SpawnStep(e, dt, c, d);
            var p := Integrate(if jump then Jump(s.player, c) else s.player, c);
      && (t.engine.lives == e.lives - 1 <==> FirstHit(Box(p), Advance(s.obstacles, c.speed)).Some?)
      && (t.engine.lives == e.lives ==> t.engine.player == p)
      && t.engine.spawnTimer == s.spawnTimer && t.engine.nextSpawnDelay == s.nextSpawnDelay
    ensures t.engine.lives < e.lives ==> t.engine.player == Standing && t.engine.obstacles == []
    ensures t.engine.lives == e.lives ==>
              t.engine.obstacles == Advance(SpawnStep(e, dt, ConfigOf(e.level), d).obstacles, ConfigOf(e.level).speed)
    ensures t.engine.score == e.score + ScoreGain(dt, ConfigOf(e.level).speed)
    ensures t.gameOver.Some? <==> t.engine.lives < e.lives && t.engine.lives <= 0
    ensures t.gameOver.Some? ==> t.gameOver.value == e.score
    ensures t.engine.running <==> e.running && t.gameOver.None?
  {
    var m := Move(e, dt, jump, d);
    var t := Collide(m);
    Tick(t.engine.(score := t.engine.score + ScoreGain(dt, ConfigOf(e.level).speed)), t.gameOver)
  }

  /** A tick of a running, valid engine leaves a valid engine. */
  lemma UpdateKeepsValid(e: Engine, dt: real, jump: bool, d: Draws)
    requires Valid(e) && e.running
    ensures Valid(Update(e, dt, jump, d).engine)
  {
    var c := ConfigOf(e.level);
    var s := SpawnStep(e, dt, c, d);
    MoveKeepsOk(s.player, c, jump);
    StandingOk();
  }

  /** With dt >= 0 the score never goes down. */
  lemma ScoreNeverDecreases(e: Engine, dt: real, jump: bool, d: Draws)
    requires dt >= 0.0
    ensures Update(e, dt, jump, d).engine.score >= e.score
  {
    TableIsPhysical(ConfigOf(e.level));
  }

  /**
   * With no obstacle on the field, a tick costs no life, provided the field is
   * wide enough (100 px) that a fresh obstacle starts clear of the player.
   */
  lemma EmptyFieldKeepsLives(e: Engine, dt: real, jump: bool, d: Draws)
    requires e.obstacles == [] && e.width >= 100.0
    ensures Update(e, dt, jump, d).engine.lives == e.lives
    ensures Update(e, dt, jump, d).gameOver.None?
  {
    var c := ConfigOf(e.level);
    TableIsPhysical(c);
    var s := SpawnStep(e, dt, c, d);
    var m := Move(e, dt, jump, d);
    if SpawnDue(e, dt) {
      var o := Spawned(e.width, d.width, d.height);
      assert s.obstacles == [o];
      AdvanceOne(o, c.speed);
      if m.obstacles != [] {
        assert m.obstacles == [Moved(o, c.speed)];
        assert !Aabb(Box(m.player), m.obstacles[0]);
      }
    }
    assert FirstHit(Box(m.player), m.obstacles).None?;
  }

  /**
   * Level 2, grounded, jump held, nothing on the field: after one tick
   * vy = -12.5 + 0.7 = -11.8 and the player is in the air.
   */
  lemma LevelTwoJumpTick(e: Engine, dt: real, d: Draws)
    requires e.level == 2.0 && e.player == Standing && e.obstacles == [] && e.width >= 100.0
    ensures Update(e, dt, true, d).engine.player == Player(StandY - 11.8, -11.8, false)
  {
    EmptyFieldKeepsLives(e, dt, true, d);
    LevelTwoTakeOff();
  }
}

=== FILE: geometry.dfy ===
/**
 * Axis-aligned rectangles and the open-interval overlap test the engine
 * uses for collisions: rectangles that only share an edge do not overlap.
 */
module Geometry {

  /** A rectangle given by its top-left corner and its size (y grows downwards). */
  datatype Rect = Rect(x: real, y: real, w: real, h: real)

  /** The point (px, py) lies strictly inside `a`. */
  predicate InsideOpen(a: Rect, px: real, py: real) {
    a.x < px < a.x + a.w && a.y < py < a.y + a.h
  }

  /** The collision test: strict inequalities on both axes. */
  predicate Aabb(a: Rect, b: Rect)
    ensures Aabb(a, b) ==> a.w + b.w > 0.0 && a.h + b.h > 0.0
  {
    a.x < b.x + b.w && a.x + a.w > b.x && a.y < b.y + b.h && a.y + a.h > b.y
  }

  /** The test does not depend on the order of its two rectangles. */
  lemma AabbSymmetric(a: Rect, b: Rect)
    ensures Aabb(a, b) <==> Aabb(b, a)
  {
  }

  /**
   * For rectangles of positive size, the test holds exactly when some point
   * lies strictly inside both: overlap of open regions, never mere contact.
   */
  lemma AabbMeansSharedInterior(a: Rect, b: Rect)
    requires a.w > 0.0 && a.h > 0.0 && b.w > 0.0 && b.h > 0.0
    ensures Aabb(a, b) <==> exists px, py :: InsideOpen(a, px, py) && InsideOpen(b, px, py)
  {
    if Aabb(a, b) {
      var lox := if a.x < b.x then b.x else a.x;
      var hix := if a.x + a.w < b.x + b.w then a.x + a.w else b.x + b.w;
      var loy := if a.y < b.y then b.y else a.y;
      var hiy := if a.y + a.h < b.y + b.h then a.y + a.h else b.y + b.h;
      var px := (lox + hix) / 2.0;
      var py := (loy + hiy) / 2.0;
      assert InsideOpen(a, px, py) && InsideOpen(b, px, py);
    }
  }

  /** Two 10x10 squares sharing the edge x = 10 do not collide. */
  lemma EdgeContactIsNoHit()
    ensures !Aabb(Rect(0.0, 0.0, 10.0, 10.0), Rect(10.0, 0.0, 10.0, 10.0))
  {
  }

  /** Two 10x10 squares offset by (5, 5) collide. */
  lemma OffsetSquaresHit()
    ensures Aabb(Rect(0.0, 0.0, 10.0, 10.0), Rect(5.0, 5.0, 10.0, 10.0))
  {
  }
}

=== FILE: high_scores.dfy ===
/**
 * The high-score list: `saveScore` appends the new entry, sorts the list by
 * score, highest first, and keeps the first 20; `getScores` falls back to an
 * empty list whenever storage holds nothing usable.
 *
 * The sort is stable (JavaScript's `Array.prototype.sort` has been required
 * to be stable since ECMAScript 2019), so entries of equal score keep their
 * order of insertion.
 */
module HighScores {
  import opened Options

  /** At most this many entries are kept. */
  const MaxScores: nat := 20

  /** A stored record: three-letter initials, the score, an ISO-8601 date. */
  datatype Entry = Entry(initials: string, score: int, date: string)

  /** How many of `n` entries the list keeps. */
  function Kept(n: nat): nat {
    if n < MaxScores then n else MaxScores
  }

  /** Highest score first. */
  predicate SortedDesc(s: seq<Entry>) {
    forall i, j :: 0 <= i < j < |s| ==> s[i].score >= s[j].score
  }

  /** The entries of `s` with score `k`, in their order in `s`. */
  function WithScore(s: seq<Entry>, k: int): (r: seq<Entry>)
    ensures |r| <= |s|
    decreases |s|
  {
    if s == [] then []
    else (if s[0].score == k then [s[0]] else []) + WithScore(s[1..], k)
  }

  lemma {:induction false} WithScoreAppend(a: seq<Entry>, b: seq<Entry>, k: int)
    ensures WithScore(a + b, k) == WithScore(a, k) + WithScore(b, k)
    decreases |a|
  {
    if a == [] {
      assert a + b == b;
    } else {
      WithScoreAppend(a[1..], b, k);
      assert a + b == [a[0]] + (a[1..] + b);
      assert a == [a[0]] + a[1..];
      WithScoreCons(a[0], a[1..] + b, k);
      WithScoreCons(a[0], a[1..], k);
    }
  }

  /** The group of score `k` holds exactly the entries of `s` scoring `k`. */
  lemma {:induction false} WithScoreMembers(s: seq<Entry>, k: int, x: Entry)
    ensures x in WithScore(s, k) <==> x in s && x.score == k
    decreases |s|
  {
    if s != [] {
      WithScoreMembers(s[1..], k, x);
      assert s == [s[0]] + s[1..];
    }
  }

  /** A list with no entry of score `k` has an empty group for `k`. */
  lemma {:induction false} WithScoreNone(s: seq<Entry>, k: int)
    requires forall i :: 0 <= i < |s| ==> s[i].score != k
    ensures WithScore(s, k) == []
    decreases |s|
  {
    if s != [] {
      WithScoreNone(s[1..], k);
    }
  }

  lemma WithScoreCons(x: Entry, s: seq<Entry>, k: int)
    ensures WithScore([x] + s, k) == (if x.score == k then [x] else []) + WithScore(s, k)
  {
    assert ([x] + s)[1..] == s;
  }

  /**
   * Places `x` before the first entry scoring strictly less, that is after
   * every entry scoring at least as much.
   */
  function Insert(x: Entry, s: seq<Entry>): (r: seq<Entry>)
    ensures |r| == |s| + 1
    decreases |s|
  {
    if s == [] || s[0].score < x.score then [x] + s else [s[0]] + Insert(x, s[1..])
  }

  /** The number of leading entries of `s` scoring at least `x`: where `Insert` puts `x`. */
  function Position(x: Entry, s: seq<Entry>): (i: nat)
    ensures i <= |s|
    decreases |s|
  {
    if s == [] || s[0].score < x.score then 0 else 1 + Position(x, s[1..])
  }

  /**
   * Insertion splices `x` in after the leading entries scoring at least as
   * much, and before the first entry scoring less.
   */
  lemma {:induction false} InsertSplices(x: Entry, s: seq<Entry>)
    ensures var i := Position(x, s);
      && Insert(x, s) == s[..i] + [x] + s[i..]
      && (forall j :: 0 <= j < i ==> s[j].score >= x.score)
      && (i < |s| ==> s[i].score < x.score)
    decreases |s|
  {
    if s != [] && s[0].score >= x.score {
      InsertSplices(x, s[1..]);
      var i := Position(x, s[1..]);
      assert s[..i + 1] == [s[0]] + s[1..][..i];
      assert s[i + 1..] == s[1..][i..];
      forall j | 0 <= j < i + 1
        ensures s[j].score >= x.score
      {
        if j > 0 {
          assert s[j] == s[1..][j - 1];
        }
      }
    }
  }

  /** Inserting adds exactly `x`. */
  lemma {:induction false} InsertAdds(x: Entry, s: seq<Entry>)
    ensures multiset(Insert(x, s)) == multiset(s) + multiset{x}
    decreases |s|
  {
    if s != [] && s[0].score >= x.score {
      InsertAdds(x, s[1..]);
      assert s == [s[0]] + s[1..];
    }
  }

  /** Inserting into a sorted list keeps it sorted. */
  lemma {:induction false} InsertSorted(x: Entry, s: seq<Entry>)
    requires SortedDesc(s)
    ensures SortedDesc(Insert(x, s))
    decreases |s|
  {
    if s != [] && s[0].score >= x.score {
      var rest := Insert(x, s[1..]);
      InsertSorted(x, s[1..]);
      InsertAdds(x, s[1..]);
      var r := [s[0]] + rest;
      forall j | 0 < j < |r|
        ensures s[0].score >= r[j].score
      {
        assert r[j] == rest[j - 1];
        assert rest[j - 1] in multiset(s[1..]) + multiset{x};
        if rest[j - 1] in s[1..] {
          var i :| 0 <= i < |s[1..]| && s[1..][i] == rest[j - 1];
          assert s[i + 1] == rest[j - 1];
        }
      }
    }
  }

  /** A stable sort by score, highest first: each entry is inserted after the ones before it. */
  function SortDesc(s: seq<Entry>): (r: seq<Entry>)
    ensures multiset(r) == multiset(s)
    ensures SortedDesc(r)
    decreases |s|
  {
    if s == [] then []
    else
      var init, last := s[..|s| - 1], s[|s| - 1];
      assert s == init + [last];
      InsertAdds(last, SortDesc(init));
      InsertSorted(last, SortDesc(init));
      Insert(last, SortDesc(init))
  }

  /** In a sorted list, every entry scores at most the head's score. */
  lemma HeadIsBest(s: seq<Entry>, x: Entry)
    requires SortedDesc(s) && x in s
    ensures x.score <= s[0].score
  {
    var i :| 0 <= i < |s| && s[i] == x;
  }

  /** Placed in front of a sorted list of lower scores, `x` has a group of its own. */
  lemma InsertFrontWithScore(x: Entry, s: seq<Entry>, k: int)
    requires SortedDesc(s) && s != [] && s[0].score < x.score
    ensures WithScore([x] + s, k) == WithScore(s, k) + (if x.score == k then [x] else [])
  {
    WithScoreCons(x, s, k);
    if x.score == k {
      forall i | 0 <= i < |s|
        ensures s[i].score != k
      {
        assert s[i].score <= s[0].score;
      }
      WithScoreNone(s, k);
    }
  }

  /** Inserting adds `x` after all entries of its score and changes no other score group. */
  lemma {:induction false} InsertWithScore(x: Entry, s: seq<Entry>, k: int)
    requires SortedDesc(s)
    ensures WithScore(Insert(x, s), k) == WithScore(s, k) + (if x.score == k then [x] else [])
    decreases |s|
  {
    if s == [] {
      WithScoreCons(x, [], k);
    } else if s[0].score < x.score {
      InsertFrontWithScore(x, s, k);
    } else {
      var rest := Insert(x, s[1..]);
      assert Insert(x, s) == [s[0]] + rest;
      assert SortedDesc(s[1..]);
      InsertWithScore(x, s[1..], k);
      WithScoreCons(s[0], rest, k);
      WithScoreCons(s[0], s[1..], k);
      assert [s[0]] + s[1..] == s;
    }
  }

  /** Sorting one more entry appends it to its score group and leaves the others alone. */
  lemma SortStableStep(init: seq<Entry>, last: Entry, k: int)
    requires WithScore(SortDesc(init), k) == WithScore(init, k)
    ensures WithScore(SortDesc(init + [last]), k) == WithScore(init + [last], k)
  {
    var s := init + [last];
    var sorted := SortDesc(init);
    var mine := if last.score == k then [last] else [];
    assert s[..|s| - 1] == init && s[|s| - 1] == last;
    assert SortDesc(s) == Insert(last, sorted);
    InsertWithScore(last, sorted, k);
    WithScoreAppend(init, [last], k);
    WithScoreCons(last, [], k);
    assert [last] + [] == [last];
  }

  /** The sort is stable: within every score, the order of the input is kept. */
  lemma {:induction false} SortStable(s: seq<Entry>, k: int)
    ensures WithScore(SortDesc(s), k) == WithScore(s, k)
    decreases |s|
  {
    if s != [] {
      var init, last := s[..|s| - 1], s[|s| - 1];
      SortStable(init, k);
      SortStableStep(init, last, k);
      assert init + [last] == s;
    }
  }

  /** A non-empty list has a non-empty group for the score of its head. */
  lemma HeadGroupNonEmpty(u: seq<Entry>)
    requires u != []
    ensures WithScore(u, u[0].score) != []
  {
    WithScoreCons(u[0], u[1..], u[0].score);
    assert [u[0]] + u[1..] == u;
  }

  /** Only the empty list has every score group empty. */
  lemma EmptyGroupsEmptyList(t: seq<Entry>, u: seq<Entry>)
    requires t == []
    requires forall k :: WithScore(t, k) == WithScore(u, k)
    ensures u == []
  {
    if u != [] {
      HeadGroupNonEmpty(u);
      assert false;
    }
  }

  /** Sorted lists sharing the groups of both head scores have equal head scores. */
  lemma HeadScoresEqual(t: seq<Entry>, u: seq<Entry>)
    requires t != [] && u != [] && SortedDesc(t) && SortedDesc(u)
    requires WithScore(t, u[0].score) == WithScore(u, u[0].score)
    requires WithScore(t, t[0].score) == WithScore(u, t[0].score)
    ensures t[0].score == u[0].score
  {
    assert [t[0]] + t[1..] == t && [u[0]] + u[1..] == u;
    WithScoreCons(t[0], t[1..], t[0].score);
    WithScoreCons(u[0], u[1..], u[0].score);
    WithScoreMembers(t, u[0].score, u[0]);
    WithScoreMembers(u, t[0].score, t[0]);
    HeadIsBest(t, u[0]);
    HeadIsBest(u, t[0]);
  }

  /** Lists whose heads share a score and whose groups for it agree have the same head. */
  lemma HeadsEqual(t: seq<Entry>, u: seq<Entry>)
    requires t != [] && u != [] && t[0].score == u[0].score
    requires WithScore(t, t[0].score) == WithScore(u, t[0].score)
    ensures t[0] == u[0]
  {
    var m := t[0].score;
    assert [t[0]] + t[1..] == t && [u[0]] + u[1..] == u;
    WithScoreCons(t[0], t[1..], m);
    WithScoreCons(u[0], u[1..], m);
    assert WithScore(t, m) == [t[0]] + WithScore(t[1..], m);
    assert WithScore(u, m) == [u[0]] + WithScore(u[1..], m);
    assert WithScore(t, m)[0] == t[0] && WithScore(u, m)[0] == u[0];
  }

  /** Removing the same head from both lists keeps a group equality. */
  lemma TailGroupsEqual(t: seq<Entry>, u: seq<Entry>, k: int)
    requires t != [] && u != [] && t[0] == u[0]
    requires WithScore(t, k) == WithScore(u, k)
    ensures WithScore(t[1..], k) == WithScore(u[1..], k)
  {
    assert [t[0]] + t[1..] == t && [u[0]] + u[1..] == u;
    WithScoreCons(t[0], t[1..], k);
    WithScoreCons(u[0], u[1..], k);
    var a, b := WithScore(t[1..], k), WithScore(u[1..], k);
    if t[0].score == k {
      assert ([t[0]] + a)[1..] == a && ([t[0]] + b)[1..] == b;
    } else {
      assert [] + a == a && [] + b == b;
    }
  }

  /** Two lists sorted by score with the same entries in every score group are equal. */
  lemma {:induction false} SameGroupsSameList(t: seq<Entry>, u: seq<Entry>)
    requires SortedDesc(t) && SortedDesc(u)
    requires forall k :: WithScore(t, k) == WithScore(u, k)
    ensures t == u
    decreases |t|
  {
    if t == [] {
      EmptyGroupsEmptyList(t, u);
    } else if u == [] {
      EmptyGroupsEmptyList(u, t);
    } else {
      HeadScoresEqual(t, u);
      HeadsEqual(t, u);
      forall k
        ensures WithScore(t[1..], k) == WithScore(u[1..], k)
      {
        TailGroupsEqual(t, u, k);
      }
      assert SortedDesc(t[1..]) && SortedDesc(u[1..]);
      SameGroupsSameList(t[1..], u[1..]);
      assert t == [t[0]] + t[1..] && u == [u[0]] + u[1..];
    }
  }

  /** `SortDesc` is the only stable descending sort: any sorted list keeping every score group is it. */
  lemma TheStableSort(s: seq<Entry>, t: seq<Entry>)
    requires SortedDesc(t)
    requires forall k :: WithScore(t, k) == WithScore(s, k)
    ensures t == SortDesc(s)
  {
    forall k
      ensures WithScore(t, k) == WithScore(SortDesc(s), k)
    {
      SortStable(s, k);
    }
    SameGroupsSameList(t, SortDesc(s));
  }

  /** Sorting an already sorted list changes nothing. */
  lemma SortOfSorted(s: seq<Entry>)
    requires SortedDesc(s)
    ensures SortDesc(s) == s
  {
    TheStableSort(s, s);
  }

  /** The list `saveScore` writes: the new entry joins, the list is sorted, the first 20 stay. */
  function Rank(list: seq<Entry>, entry: Entry): (r: seq<Entry>)
    ensures |r| == Kept(|list| + 1)
    ensures SortedDesc(r)
    ensures multiset(r) <= multiset(list + [entry])
    ensures r == SortDesc(list + [entry])[..|r|]
  {
    var all := SortDesc(list + [entry]);
    assert |all| == |list| + 1 by {
      assert |multiset(all)| == |multiset(list + [entry])|;
    }
    var r := if |all| <= MaxScores then all else all[..MaxScores];
    assert all == r + all[|r|..];
    r
  }

  /** The entries a prefix leaves out are those of the matching suffix. */
  lemma PrefixRemainder(all: seq<Entry>, n: nat)
    requires n <= |all|
    ensures multiset(all) - multiset(all[..n]) == multiset(all[n..])
  {
    assert all == all[..n] + all[n..];
  }

  /** In a sorted list, every entry of a prefix scores at least every entry of the rest. */
  lemma SortedPrefixBeatsRest(all: seq<Entry>, n: nat, x: Entry, y: Entry)
    requires SortedDesc(all) && n <= |all|
    requires x in all[..n] && y in all[n..]
    ensures x.score >= y.score
  {
    var i :| 0 <= i < n && all[..n][i] == x;
    var j :| 0 <= j < |all| - n && all[n..][j] == y;
    assert all[i] == x && all[n + j] == y;
  }

  /** Only the lowest scores are dropped: every kept entry scores at least as much as every dropped one. */
  lemma RankDropsOnlyLowest(list: seq<Entry>, entry: Entry, x: Entry, y: Entry)
    requires x in Rank(list, entry)
    requires y in multiset(list + [entry]) - multiset(Rank(list, entry))
    ensures x.score >= y.score
  {
    var all := SortDesc(list + [entry]);
    var r := Rank(list, entry);
    PrefixRemainder(all, |r|);
    assert y in multiset(all[|r|..]);
    SortedPrefixBeatsRest(all, |r|, x, y);
  }

  /** A new entry tying with stored ones lands after all of them. */
  lemma RankTiesKeepInsertionOrder(list: seq<Entry>, entry: Entry)
    ensures WithScore(SortDesc(list + [entry]), entry.score) == WithScore(list, entry.score) + [entry]
  {
    SortStable(list + [entry], entry.score);
    WithScoreAppend(list, [entry], entry.score);
    WithScoreCons(entry, [], entry.score);
  }

  /** An entry beating every stored score goes to the top of a sorted list. */
  lemma RankNewBest(list: seq<Entry>, entry: Entry)
    requires SortedDesc(list)
    requires forall i :: 0 <= i < |list| ==> list[i].score < entry.score
    ensures Rank(list, entry) == ([entry] + list)[..Kept(|list| + 1)]
  {
    var s := list + [entry];
    assert s[..|s| - 1] == list;
    SortOfSorted(list);
    assert SortDesc(s) == Insert(entry, list);
    assert Insert(entry, list) == [entry] + list;
  }

  /** Saving every entry of `es` in turn, starting from an empty store. */
  function Replay(es: seq<Entry>): seq<Entry>
    decreases |es|
  {
    if es == [] then [] else Rank(Replay(es[..|es| - 1]), es[|es| - 1])
  }

  predicate StrictlyRising(es: seq<Entry>) {
    forall i, j :: 0 <= i < j < |es| ==> es[i].score < es[j].score
  }

  /** `r` holds the last 20 entries of `es` (or all of them), newest first. */
  predicate NewestFirst(es: seq<Entry>, r: seq<Entry>) {
    && |r| == Kept(|es|)
    && forall i :: 0 <= i < |r| ==> r[i] == es[|es| - 1 - i]
  }

  /** The newest-first tail of a rising sequence is sorted and lies below the next entry. */
  lemma NewestFirstBelow(es: seq<Entry>, r: seq<Entry>)
    requires StrictlyRising(es) && es != []
    requires NewestFirst(es[..|es| - 1], r)
    ensures SortedDesc(r)
    ensures forall i :: 0 <= i < |r| ==> r[i].score < es[|es| - 1].score
  {
    var n := |es|;
    forall i, j | 0 <= i < j < |r|
      ensures r[i].score >= r[j].score
    {
      assert r[i] == es[n - 2 - i] && r[j] == es[n - 2 - j];
    }
    forall i | 0 <= i < |r|
      ensures r[i].score < es[n - 1].score
    {
      assert r[i] == es[n - 2 - i];
    }
  }

  /** Putting the next entry in front of a newest-first list, cut to 20, keeps it newest first. */
  lemma PrependNewest(es: seq<Entry>, r0: seq<Entry>, r: seq<Entry>)
    requires es != [] && NewestFirst(es[..|es| - 1], r0)
    requires r == ([es[|es| - 1]] + r0)[..Kept(|r0| + 1)]
    ensures NewestFirst(es, r)
  {
    var n := |es|;
    var full := [es[n - 1]] + r0;
    forall i | 0 <= i < |r|
      ensures r[i] == es[n - 1 - i]
    {
      assert r[i] == full[i];
      if i > 0 {
        assert full[i] == r0[i - 1];
        assert r0[i - 1] == es[..n - 1][n - 2 - (i - 1)];
      }
    }
  }

  /** One more save of a new best entry extends the newest-first list. */
  lemma RisingSaveStep(es: seq<Entry>, r0: seq<Entry>)
    requires StrictlyRising(es) && es != []
    requires NewestFirst(es[..|es| - 1], r0)
    ensures NewestFirst(es, Rank(r0, es[|es| - 1]))
  {
    NewestFirstBelow(es, r0);
    RankNewBest(r0, es[|es| - 1]);
    PrependNewest(es, r0, Rank(r0, es[|es| - 1]));
  }

  /** Saving entries of rising scores keeps the last 20 of them, newest (highest) first. */
  lemma {:induction false} RisingSavesKeepTop(es: seq<Entry>)
    requires StrictlyRising(es)
    ensures NewestFirst(es, Replay(es))
    decreases |es|
  {
    if es != [] {
      var init := es[..|es| - 1];
      assert StrictlyRising(init);
      RisingSavesKeepTop(init);
      RisingSaveStep(es, Replay(init));
    }
  }

  /** Twenty-five saves with scores 1..25 leave exactly the scores 25 down to 6. */
  lemma TwentyFiveRisingSaves(es: seq<Entry>)
    requires |es| == 25
    requires forall i :: 0 <= i < 25 ==> es[i].score == i + 1
    ensures |Replay(es)| == 20
    ensures forall i :: 0 <= i < 20 ==> Replay(es)[i].score == 25 - i
  {
    RisingSavesKeepTop(es);
  }

  /** What reading the storage key yields. */
  datatype Stored =
    | NoStorage          // no localStorage in this environment
    | Absent             // nothing (or an empty string) under the key
    | Unparsable         // the text is not JSON
    | NotAnArray         // JSON, but not an array
    | AnArray(entries: seq<Entry>)

  /** `getScores`: the stored array, or the empty list for anything else. */
  function GetScores(st: Stored): (r: seq<Entry>)
    ensures st.AnArray? ==> r == st.entries
    ensures !st.AnArray? ==> r == []
  {
    match st
    case AnArray(entries) => entries
    case _ => []
  }

  /** `saveScore`: the list written back, or nothing when there is no storage. */
  function SaveScore(st: Stored, entry: Entry): (written: Option<seq<Entry>>)
    ensures written.None? <==> st.NoStorage?
    ensures written.Some? ==> written.value == Rank(GetScores(st), entry)
    ensures written.Some? && !st.AnArray? ==> written.value == [entry]
  {
    if st.NoStorage? then None else Some(Rank(GetScores(st), entry))
  }

  /**
   * Reading back what a save wrote gives at most 20 entries, highest first,
   * all taken from the old list and the new entry; while the old list is
   * shorter than 20 the new entry is among them.
   */
  lemma SaveThenGet(st: Stored, entry: Entry)
    requires !st.NoStorage?
    ensures var l := GetScores(AnArray(SaveScore(st, entry).value));
      && SortedDesc(l) && |l| <= MaxScores
      && multiset(l) <= multiset(GetScores(st) + [entry])
      && (|GetScores(st)| < MaxScores ==> entry in l)
  {
    var list := GetScores(st);
    var l := Rank(list, entry);
    if |list| < MaxScores {
      var all := SortDesc(list + [entry]);
      assert |l| == |all|;
      assert l == all;
      assert entry in multiset(list + [entry]);
    }
  }
}

=== FILE: input.dfy ===
/**
 * The input adapter: the set of keys currently held, maintained from
 * key-down and key-up events, and the jump intent read from it every tick.
 */
module Input {

  /** The keys that make the player jump: space and the up arrow. */
  const Space: string := " "
  const ArrowUp: string := "ArrowUp"

  predicate IsJumpKey(k: string) {
    k == Space || k == ArrowUp
  }

  /** The jump intent of a tick: some jump key is held. */
  predicate JumpHeld(keys: set<string>)
    ensures JumpHeld(keys) <==> exists k :: k in keys && IsJumpKey(k)
  {
    Space in keys || ArrowUp in keys
  }

  /** A key-down event adds the key; pressing a jump key makes jump held. */
  function KeyDown(keys: set<string>, k: string): (r: set<string>)
    ensures k in r && keys <= r && r - keys <= {k}
    ensures JumpHeld(r) <==> JumpHeld(keys) || IsJumpKey(k)
  {
    keys + {k}
  }

  /** A key-up event removes the key; jump stays held only through the other jump key. */
  function KeyUp(keys: set<string>, k: string): (r: set<string>)
    ensures k !in r && r <= keys && keys - r <= {k}
    ensures JumpHeld(r) <==> (k != Space && Space in keys) || (k != ArrowUp && ArrowUp in keys)
  {
    keys - {k}
  }

  /** Keys other than the jump keys never change the jump intent. */
  lemma OtherKeysIgnored(keys: set<string>, k: string)
    requires !IsJumpKey(k)
    ensures JumpHeld(KeyDown(keys, k)) == JumpHeld(keys)
    ensures JumpHeld(KeyUp(keys, k)) == JumpHeld(keys)
  {
  }

  /** Pressing and releasing a key that was not held restores the key set. */
  lemma PressReleaseRoundTrip(keys: set<string>, k: string)
    requires k !in keys
    ensures KeyUp(KeyDown(keys, k), k) == keys
  {
  }
}

=== FILE: levels.dfy ===
/**
 * The level table and the clamping rule of `setLevel`.
 *
 * The engine keeps its level as a JavaScript number, so a level is a `real`
 * here: clamping can produce a value such as 2.5, which is not a key of the
 * table and therefore selects level 1's configuration.
 */
module Levels {
  import opened Options

  /** Tunables of one level: scroll speed per tick, spawn delay bounds in ms, gravity, jump impulse. */
  datatype LevelConfig = LevelConfig(speed: real, spawnMin: int, spawnMax: int, gravity: real, jumpVel: real)

  const Level1 := LevelConfig(3.0, 1200, 2000, 0.6, -11.0)
  const Level2 := LevelConfig(4.0, 900, 1500, 0.7, -12.5)
  const Level3 := LevelConfig(5.2, 700, 1200, 0.75, -13.0)

  /** The smallest gravity and the strongest jump of the table; the flight-height bound rests on them. */
  const MinGravity: real := 0.6
  const MaxJumpVel: real := 13.0

  /** One of the three configurations of the table. */
  predicate InTable(c: LevelConfig) {
    c == Level1 || c == Level2 || c == Level3
  }

  /** Indexing the table by a level number: only the three integral keys are present. */
  function Lookup(level: real): (c: Option<LevelConfig>)
    ensures c.Some? <==> level == 1.0 || level == 2.0 || level == 3.0
    ensures c.Some? ==> InTable(c.value)
    ensures level == 1.0 ==> c == Some(Level1)
    ensures level == 2.0 ==> c == Some(Level2)
    ensures level == 3.0 ==> c == Some(Level3)
  {
    if level == 1.0 then Some(Level1)
    else if level == 2.0 then Some(Level2)
    else if level == 3.0 then Some(Level3)
    else None
  }

  /** The configuration in force at a level: a missing key falls back to level 1. */
  function ConfigOf(level: real): (c: LevelConfig)
    ensures InTable(c)
    ensures Lookup(level).Some? ==> c == Lookup(level).value
    ensures level != 2.0 && level != 3.0 ==> c == Level1
  {
    Lookup(level).GetOr(Level1)
  }

  /** Every configuration of the table has the ranges the physics and spawning rely on. */
  lemma TableIsPhysical(c: LevelConfig)
    requires InTable(c)
    ensures c.speed > 0.0 && 0 <= c.spawnMin <= c.spawnMax
    ensures MinGravity <= c.gravity <= 0.75
    ensures -MaxJumpVel <= c.jumpVel < 0.0
  {
  }

  /** Difficulty grows with the level: faster, denser, heavier, with a stronger jump. */
  lemma DifficultyIncreases()
    ensures Level1.speed < Level2.speed < Level3.speed
    ensures Level1.spawnMin > Level2.spawnMin > Level3.spawnMin
    ensures Level1.spawnMax > Level2.spawnMax > Level3.spawnMax
    ensures Level1.gravity < Level2.gravity < Level3.gravity
    ensures Level1.jumpVel > Level2.jumpVel > Level3.jumpVel
  {
  }

  /** The outcome of JavaScript's `Number(l)` on the requested level. */
  datatype Num = Finite(value: real) | NaN | Infinity(negative: bool)

  /** JavaScript truthiness of a number: everything except 0 and NaN. */
  predicate Truthy(n: Num) {
    match n
    case Finite(v) => v != 0.0
    case NaN => false
    case Infinity(_) => true
  }

  function Min(a: real, b: real): real { if a < b then a else b }
  function Max(a: real, b: real): real { if a > b then a else b }

  /**
   * `Math.max(1, Math.min(3, Number(l) || 1))`: the `|| 1` replaces 0 and NaN,
   * and an infinite request saturates at the nearer bound.
   */
  function ClampLevel(n: Num): (level: real)
    ensures 1.0 <= level <= 3.0
    ensures !Truthy(n) ==> level == 1.0
    ensures n.Finite? && 1.0 <= n.value <= 3.0 ==> level == n.value
    ensures n.Finite? && n.value > 3.0 ==> level == 3.0
    ensures n.Finite? && n.value < 1.0 ==> level == 1.0
    ensures n.Infinity? ==> level == (if n.negative then 1.0 else 3.0)
  {
    var x := if Truthy(n) then n else Finite(1.0);
    match x
    case Finite(v) => Max(1.0, Min(3.0, v))
    case Infinity(negative) => if negative then 1.0 else 3.0
    case NaN => assert false; 1.0
  }

  /** Clamping an already clamped level changes nothing. */
  lemma ClampIdempotent(n: Num)
    ensures ClampLevel(Finite(ClampLevel(n))) == ClampLevel(n)
  {
  }

  /** Clamping preserves the order of finite requests. */
  lemma ClampMonotone(a: real, b: real)
    requires a <= b
    ensures ClampLevel(Finite(a)) <= ClampLevel(Finite(b))
  {
  }

  /** A fractional request is kept as is and then runs with level 1's configuration. */
  lemma FractionalLevelRunsAsLevelOne()
    ensures ClampLevel(Finite(2.5)) == 2.5
    ensures Lookup(2.5).None? && ConfigOf(ClampLevel(Finite(2.5))) == Level1
  {
  }
}

=== FILE: loop.dfy ===
/**
 * The animation loop: each frame runs one tick with the elapsed time and
 * the keys held at that moment, reports (score, lives) to the shell, and
 * the loop schedules no further frame once the engine has stopped.
 */
module GameLoop {
  import opened Input
  import opened GameEngine

  /** What the host supplies for one frame. */
  datatype Frame = Frame(dt: real, keys: set<string>, draws: Draws)

  /** The state after a run, the (score, lives) pairs reported per tick, and the game-over scores. */
  datatype Run = Run(engine: Engine, reports: seq<(int, int)>, gameOvers: seq<int>)

  predicate Forward(frames: seq<Frame>) {
    forall i :: 0 <= i < |frames| ==> frames[i].dt >= 0.0
  }

  /** Scores reported by a run never go down and stay between the start and final score. */
  predicate ScoresClimb(reports: seq<(int, int)>, low: int, high: int) {
    && (forall i :: 0 <= i < |reports| ==> low <= reports[i].0 <= high)
    && (forall i, j :: 0 <= i < j < |reports| ==> reports[i].0 <= reports[j].0)
  }

  /** The tick a frame runs: it jumps exactly when space or the up arrow is held. */
  function Step(e: Engine, f: Frame): (t: Tick)
    ensures Space in f.keys || ArrowUp in f.keys ==> t == Update(e, f.dt, true, f.draws)
    ensures Space !in f.keys && ArrowUp !in f.keys ==> t == Update(e, f.dt, false, f.draws)
  {
    Update(e, f.dt, JumpHeld(f.keys), f.draws)
  }

  /**
   * The frames the loop processes from `e`: one tick and one (score, lives)
   * report each, while the engine runs. A run that ends running has
   * processed every frame.
   */
  function RunFrames(e: Engine, frames: seq<Frame>): (r: Run)
    ensures |r.reports| <= |frames|
    ensures !e.running ==> r == Run(e, [], [])
    ensures r.engine.running ==> |r.reports| == |frames|
    ensures e.running && frames != [] ==>
      var t := Step(e, frames[0]);
      r.reports != [] && r.reports[0] == (t.engine.score, t.engine.lives)
    decreases |frames|
  {
    if frames == [] || !e.running then Run(e, [], [])
    else
      var t := Step(e, frames[0]);
      var rest := RunFrames(t.engine, frames[1..]);
      var over := if t.gameOver.Some? then [t.gameOver.value] else [];
      Run(rest.engine, [(t.engine.score, t.engine.lives)] + rest.reports, over + rest.gameOvers)
  }

  /** A run from a valid engine stays valid and reports lives within [0, 3]. */
  lemma {:induction false} RunKeepsValid(e: Engine, frames: seq<Frame>)
    requires Valid(e)
    ensures var r := RunFrames(e, frames);
      && Valid(r.engine)
      && (forall i :: 0 <= i < |r.reports| ==> 0 <= r.reports[i].1 <= StartLives)
    decreases |frames|
  {
    if frames != [] && e.running {
      var t := Step(e, frames[0]);
      UpdateKeepsValid(e, frames[0].dt, JumpHeld(frames[0].keys), frames[0].draws);
      RunKeepsValid(t.engine, frames[1..]);
      var rest := RunFrames(t.engine, frames[1..]);
      var r := RunFrames(e, frames);
      assert r.reports == [(t.engine.score, t.engine.lives)] + rest.reports;
    }
  }

  /**
   * A run from a valid engine fires at most one game-over event; a running
   * engine ends the run stopped exactly when that event fired, with no life left.
   */
  lemma {:induction false} RunGameOver(e: Engine, frames: seq<Frame>)
    requires Valid(e)
    ensures var r := RunFrames(e, frames);
      && |r.gameOvers| <= 1
      && (e.running ==> (|r.gameOvers| == 1 <==> !r.engine.running))
      && (e.running && !r.engine.running ==> r.engine.lives == 0)
    decreases |frames|
  {
    if frames != [] && e.running {
      var t := Step(e, frames[0]);
      UpdateKeepsValid(e, frames[0].dt, JumpHeld(frames[0].keys), frames[0].draws);
      var rest := RunFrames(t.engine, frames[1..]);
      var r := RunFrames(e, frames);
      if t.gameOver.Some? {
        assert !t.engine.running && t.engine.lives <= 0;
        assert rest == Run(t.engine, [], []);
        assert r.gameOvers == [t.gameOver.value];
        assert r.engine == t.engine;
      } else {
        assert t.engine.running;
        RunGameOver(t.engine, frames[1..]);
        assert r.gameOvers == rest.gameOvers;
        assert r.engine == rest.engine;
      }
    }
  }

  lemma ClimbCons(head: (int, int), tail: seq<(int, int)>, low: int, mid: int, high: int)
    requires low <= head.0 == mid <= high
    requires ScoresClimb(tail, mid, high)
    ensures ScoresClimb([head] + tail, low, high)
  {
    var s := [head] + tail;
    forall i, j | 0 <= i < j < |s|
      ensures s[i].0 <= s[j].0
    {
      if i > 0 {
        assert s[i] == tail[i - 1] && s[j] == tail[j - 1];
      } else {
        assert s[j] == tail[j - 1];
      }
    }
    forall i | 0 <= i < |s|
      ensures low <= s[i].0 <= high
    {
      if i > 0 {
        assert s[i] == tail[i - 1];
      }
    }
  }

  /** With non-negative frame times, reported scores climb from the start score to the final one. */
  lemma {:induction false} RunScoresClimb(e: Engine, frames: seq<Frame>)
    requires Forward(frames)
    ensures var r := RunFrames(e, frames);
      e.score <= r.engine.score && ScoresClimb(r.reports, e.score, r.engine.score)
    decreases |frames|
  {
    if frames != [] && e.running {
      var t := Step(e, frames[0]);
      ScoreNeverDecreases(e, frames[0].dt, JumpHeld(frames[0].keys), frames[0].draws);
      assert Forward(frames[1..]) by {
        forall i | 0 <= i < |frames[1..]|
          ensures frames[1..][i].dt >= 0.0
        {
          assert frames[1..][i] == frames[i + 1];
        }
      }
      RunScoresClimb(t.engine, frames[1..]);
      var rest := RunFrames(t.engine, frames[1..]);
      var r := RunFrames(e, frames);
      var head := (t.engine.score, t.engine.lives);
      assert r.reports == [head] + rest.reports;
      assert r.engine == rest.engine;
      ClimbCons(head, rest.reports, e.score, t.engine.score, r.engine.score);
    }
  }

  /** Once stopped, no frame changes anything: stop cancels the loop. */
  lemma NoTickAfterStop(e: Engine, frames: seq<Frame>)
    ensures RunFrames(Stop(e), frames).engine == Stop(e)
    ensures RunFrames(Stop(e), frames).reports == []
  {
  }

  /** Losing the last life ends the run with exactly one game-over event. */
  lemma GameOverOnce(e: Engine, frames: seq<Frame>)
    requires Valid(e) && e.running
    requires !RunFrames(e, frames).engine.running
    ensures |RunFrames(e, frames).gameOvers| == 1
    ensures RunFrames(e, frames).engine.lives == 0
  {
    RunGameOver(e, frames);
  }

  /** The reports and game-over scores of one frame's tick. */
  function Report(t: Tick): seq<(int, int)> {
    [(t.engine.score, t.engine.lives)]
  }

  function Overs(t: Tick): seq<int> {
    if t.gameOver.Some? then [t.gameOver.value] else []
  }

  /** A running engine runs the first frame, then the rest from the state it leaves. */
  lemma RunFramesCons(e: Engine, fs: seq<Frame>)
    requires e.running && fs != []
    ensures var t := Step(e, fs[0]);
            var rest := RunFrames(t.engine, fs[1..]);
      RunFrames(e, fs) == Run(rest.engine, Report(t) + rest.reports, Overs(t) + rest.gameOvers)
  {
  }

  /** One frame: nothing when stopped, otherwise exactly one tick with its report. */
  lemma RunFramesOne(e: Engine, f: Frame)
    ensures !e.running ==> RunFrames(e, [f]) == Run(e, [], [])
    ensures e.running ==>
      var t := Step(e, f);
      RunFrames(e, [f]) == Run(t.engine, [(t.engine.score, t.engine.lives)], if t.gameOver.Some? then [t.gameOver.value] else [])
  {
    if e.running {
      RunFramesCons(e, [f]);
      var t := Step(e, f);
      assert [f][1..] == [];
      assert Report(t) + [] == Report(t) && Overs(t) + [] == Overs(t);
    }
  }

  /** Running `a` then `b` is running `a + b`: the loop treats every frame alike, in order. */
  lemma {:induction false} RunFramesAppend(e: Engine, a: seq<Frame>, b: seq<Frame>)
    ensures var ra := RunFrames(e, a);
            var rb := RunFrames(ra.engine, b);
      RunFrames(e, a + b) == Run(rb.engine, ra.reports + rb.reports, ra.gameOvers + rb.gameOvers)
    decreases |a|
  {
    if a == [] {
      assert a + b == b;
      var rb := RunFrames(e, b);
      assert [] + rb.reports == rb.reports && [] + rb.gameOvers == rb.gameOvers;
    } else if e.running {
      var t := Step(e, a[0]);
      assert (a + b)[0] == a[0] && (a + b)[1..] == a[1..] + b;
      RunFramesCons(e, a + b);
      RunFramesCons(e, a);
      RunFramesAppend(t.engine, a[1..], b);
      var ra', rb := RunFrames(t.engine, a[1..]), RunFrames(RunFrames(t.engine, a[1..]).engine, b);
      ConcatAssoc(Report(t), ra'.reports, rb.reports);
      ConcatAssoc(Overs(t), ra'.gameOvers, rb.gameOvers);
    }
  }

  lemma ConcatAssoc<T>(x: seq<T>, y: seq<T>, z: seq<T>)
    ensures x + (y + z) == (x + y) + z
  {
  }
}

=== FILE: obstacles.dfy ===
/**
 * The obstacle collection: creation at the right edge, the per-tick shift
 * to the left with eviction past x = -50, and the first-hit collision scan.
 */
module Obstacles {
  import opened Options
  import opened Geometry
  import opened Physics
  import opened Random

  /** Obstacles at or left of this x are dropped. */
  const EvictX: real := -50.0
  /** New obstacles appear this far beyond the right edge of the playfield. */
  const SpawnOffset: real := 20.0
  /** New obstacles have their top this far above the ground line, whatever their height. */
  const SpawnLift: real := 24.0
  /** Bounds of the random width and height of a new obstacle. */
  const SizeMin: int := 18
  const SizeMax: int := 32

  /** A new obstacle; `dw` and `dh` are the draws for its width and height, in that order. */
  function Spawned(width: real, dw: real, dh: real): (o: Rect)
    ensures o.x == width + SpawnOffset && o.y == Ground - SpawnLift
    ensures o.w == Rand(dw, SizeMin, SizeMax) as real && o.h == Rand(dh, SizeMin, SizeMax) as real
    ensures 0.0 <= dw < 1.0 ==> SizeMin as real <= o.w <= SizeMax as real && o.w == o.w.Floor as real
    ensures 0.0 <= dh < 1.0 ==> SizeMin as real <= o.h <= SizeMax as real && o.h == o.h.Floor as real
  {
    Rect(width + SpawnOffset, Ground - SpawnLift, Rand(dw, SizeMin, SizeMax) as real, Rand(dh, SizeMin, SizeMax) as real)
  }

  /** The obstacle `d` further to the left. */
  function Moved(o: Rect, d: real): Rect {
    o.(x := o.x - d)
  }

  /** Every obstacle moves `speed` to the left. */
  function Shift(obs: seq<Rect>, speed: real): seq<Rect> {
    seq(|obs|, i requires 0 <= i < |obs| => Moved(obs[i], speed))
  }

  /** The obstacles still on the playfield, in their original order. */
  function Evict(obs: seq<Rect>): (r: seq<Rect>)
    ensures |r| <= |obs|
    ensures forall i :: 0 <= i < |r| ==> r[i].x > EvictX
    decreases |obs|
  {
    if obs == [] then []
    else (if obs[0].x > EvictX then [obs[0]] else []) + Evict(obs[1..])
  }

  /** Eviction keeps exactly the obstacles right of the eviction line. */
  lemma {:induction false} EvictMembers(obs: seq<Rect>, o: Rect)
    ensures o in Evict(obs) <==> o in obs && o.x > EvictX
    decreases |obs|
  {
    if obs != [] {
      EvictMembers(obs[1..], o);
      assert obs == [obs[0]] + obs[1..];
    }
  }

  /**
   * One tick of obstacle motion: shift left by the level's speed, then drop
   * what has reached x = -50 or beyond.
   */
  function Advance(obs: seq<Rect>, speed: real): (r: seq<Rect>)
    ensures |r| <= |obs|
    ensures forall i :: 0 <= i < |r| ==> r[i].x > EvictX
  {
    Evict(Shift(obs, speed))
  }

  /** The survivors of a tick are exactly the moved obstacles right of the eviction line. */
  lemma AdvanceMembers(obs: seq<Rect>, speed: real, o: Rect)
    ensures o in Advance(obs, speed) <==> o.x > EvictX && Moved(o, -speed) in obs
  {
    var moved := Shift(obs, speed);
    EvictMembers(moved, o);
    if o in moved {
      var i :| 0 <= i < |moved| && moved[i] == o;
      assert Moved(o, -speed) == obs[i];
    }
    if Moved(o, -speed) in obs {
      var i :| 0 <= i < |obs| && obs[i] == Moved(o, -speed);
      assert moved[i] == o;
    }
  }

  lemma {:induction false} EvictAppend(a: seq<Rect>, b: seq<Rect>)
    ensures Evict(a + b) == Evict(a) + Evict(b)
    decreases |a|
  {
    if a == [] {
      assert a + b == b;
    } else {
      assert (a + b)[1..] == a[1..] + b;
      EvictAppend(a[1..], b);
    }
  }

  /** Obstacle motion keeps relative order: it acts on each obstacle separately. */
  lemma AdvanceAppend(a: seq<Rect>, b: seq<Rect>, speed: real)
    ensures Advance(a + b, speed) == Advance(a, speed) + Advance(b, speed)
  {
    assert Shift(a + b, speed) == Shift(a, speed) + Shift(b, speed);
    EvictAppend(Shift(a, speed), Shift(b, speed));
  }

  /** What one tick does to one obstacle. */
  lemma AdvanceOne(o: Rect, speed: real)
    ensures Advance([o], speed) == if o.x - speed > EvictX then [Moved(o, speed)] else []
  {
    assert Shift([o], speed) == [Moved(o, speed)];
    assert Shift([o], speed)[1..] == [];
  }

  /** `n` ticks of obstacle motion with no spawning and no collision. */
  function AdvanceTimes(obs: seq<Rect>, speed: real, n: nat): seq<Rect> {
    if n == 0 then obs else Advance(AdvanceTimes(obs, speed, n - 1), speed)
  }

  /** The distance covered in `n` ticks at `speed` per tick. */
  function Travel(speed: real, n: nat): (d: real)
    ensures speed >= 0.0 ==> d >= 0.0
  {
    if n == 0 then 0.0 else Travel(speed, n - 1) + speed
  }

  lemma {:induction false} TravelIsProduct(speed: real, n: nat)
    ensures Travel(speed, n) == n as real * speed
  {
    if n > 0 {
      TravelIsProduct(speed, n - 1);
      var k := (n - 1) as real;
      assert (k + 1.0) * speed == k * speed + speed;
    }
  }

  /** A lone obstacle on the playfield travels `n * speed` in `n` ticks and is gone once it reaches x <= -50. */
  lemma {:induction false} LoneObstacleTrajectory(o: Rect, speed: real, n: nat)
    requires speed >= 0.0 && o.x > EvictX
    ensures AdvanceTimes([o], speed, n) ==
            if o.x - Travel(speed, n) > EvictX then [Moved(o, Travel(speed, n))] else []
  {
    if n == 0 {
      assert Moved(o, 0.0) == o;
    } else {
      LoneObstacleTrajectory(o, speed, n - 1);
      var d := Travel(speed, n - 1);
      var prev := AdvanceTimes([o], speed, n - 1);
      assert AdvanceTimes([o], speed, n) == Advance(prev, speed);
      if o.x - d > EvictX {
        assert prev == [Moved(o, d)];
        AdvanceOne(Moved(o, d), speed);
        assert Moved(Moved(o, d), speed) == Moved(o, Travel(speed, n));
      } else {
        assert prev == [];
        assert Advance([], speed) == [];
      }
    }
  }

  /** An obstacle at x = 40 moving 4 per tick is at -48 after 22 ticks and gone after 23. */
  lemma ObstacleFromFortyLeavesOnTickTwentyThree(o: Rect)
    requires o.x == 40.0
    ensures AdvanceTimes([o], 4.0, 22) == [o.(x := -48.0)]
    ensures AdvanceTimes([o], 4.0, 23) == []
  {
    LoneObstacleTrajectory(o, 4.0, 22);
    TravelIsProduct(4.0, 22);
    LoneObstacleTrajectory(o, 4.0, 23);
    TravelIsProduct(4.0, 23);
  }

  /**
   * The collision scan: the index of the first obstacle, in collection
   * order, that overlaps `box`; the scan stops there.
   */
  function FirstHit(box: Rect, obs: seq<Rect>): (r: Option<nat>)
    ensures r.Some? ==> r.value < |obs| && Aabb(box, obs[r.value])
    ensures r.Some? ==> forall j :: 0 <= j < r.value ==> !Aabb(box, obs[j])
    ensures r.None? <==> forall j :: 0 <= j < |obs| ==> !Aabb(box, obs[j])
    decreases |obs|
  {
    if obs == [] then None
    else if Aabb(box, obs[0]) then Some(0)
    else match FirstHit(box, obs[1..])
      case None => None
      case Some(i) => Some(i + 1)
  }
}

=== FILE: options.dfy ===
/** The optional value used wherever the engine or the score store may have nothing to report. */
module Options {

  datatype Option<+T> = None | Some(value: T) {

    /** Returns the wrapped value, or `default` when there is none. */
    function GetOr(default: T): T {
      match this
      case Some(v) => v
      case None => default
    }
  }
}

=== FILE: physics.dfy ===
/**
 * The player's vertical motion: the jump guard, one tick of gravity
 * integration with the ground clamp, and the bound that keeps a jump
 * inside the 400-pixel-high playfield.
 */
module Physics {
  import opened Geometry
  import opened Levels

  /** Height of the playfield; the ground line sits at 85% of it, rounded down (340). */
  const Height: real := 400.0
  const Ground: real := (Height * 0.85).Floor as real

  /** The player's box never moves horizontally or changes size. */
  const PlayerX: real := 80.0
  const PlayerW: real := 32.0
  const PlayerH: real := 32.0

  /** The y of a player standing on the ground (308). */
  const StandY: real := Ground - PlayerH

  /** The mutable part of the player: top edge, vertical velocity, grounded flag. */
  datatype Player = Player(y: real, vy: real, onGround: bool)

  /** The player at rest on the ground. */
  const Standing := Player(StandY, 0.0, true)

  /** The player's collision box. */
  function Box(p: Player): Rect {
    Rect(PlayerX, p.y, PlayerW, PlayerH)
  }

  /** The jump fires only from the ground; in the air holding the key does nothing. */
  function Jump(p: Player, c: LevelConfig): (q: Player)
    ensures q.y == p.y && !q.onGround
    ensures p.onGround ==> q.vy == c.jumpVel
    ensures !p.onGround ==> q == p
  {
    if p.onGround then p.(vy := c.jumpVel, onGround := false) else p
  }

  /**
   * One tick of motion: gravity is added to the velocity, the velocity to the
   * position, and a player reaching or passing the ground line is put back
   * onto it at rest.
   */
  function Integrate(p: Player, c: LevelConfig): (q: Player)
    ensures q.y <= StandY
    ensures q.y < StandY <==> p.y + p.vy + c.gravity < StandY
    ensures q.y < StandY ==> q.vy == p.vy + c.gravity && q.y == p.y + q.vy && q.onGround == p.onGround
    ensures q.y == StandY ==> q == Standing
  {
    var vy := p.vy + c.gravity;
    var y := p.y + vy;
    if y >= StandY then Standing else p.(y := y, vy := vy)
  }

  /**
   * A rising player (vy < 0) still has room to climb: even under the weakest
   * gravity of the table, the rest of the climb stays below the top edge.
   */
  predicate FlightBound(p: Player) {
    p.vy < 0.0 ==> p.y + p.vy / 2.0 - p.vy * p.vy / (2.0 * MinGravity) >= 0.0
  }

  /** The player is inside the playfield, grounded means resting, and a climb cannot leave the top. */
  predicate PlayerOk(p: Player) {
    && 0.0 <= p.y <= StandY
    && (p.onGround ==> p.y == StandY && p.vy == 0.0)
    && FlightBound(p)
  }

  lemma StandingOk()
    ensures PlayerOk(Standing)
  {
  }

  /** A jump from the ground leaves enough room: even the strongest take-off of the table climbs at most about 147 px. */
  lemma JumpKeepsOk(p: Player, c: LevelConfig)
    requires PlayerOk(p) && InTable(c)
    ensures PlayerOk(Jump(p, c))
  {
    if p.onGround {
      var v := c.jumpVel;
      assert -13.0 <= v <= -11.0;
      assert v * v <= 169.0 by {
        assert v * v - 169.0 == (v + 13.0) * (v - 13.0);
      }
    }
  }

  /**
   * While climbing, the quantity y + vy/2 - vy^2/(2*0.6) never decreases
   * over one tick, for every gravity of the table.
   */
  lemma ClimbBoundStep(y: real, vy: real, g: real)
    requires g == 0.6 || g == 0.7 || g == 0.75
    requires vy + g < 0.0
    ensures var vy' := vy + g;
            y + vy' + vy' / 2.0 - vy' * vy' / (2.0 * MinGravity) >= y + vy / 2.0 - vy * vy / (2.0 * MinGravity)
  {
    var vy' := vy + g;
    assert vy' * vy' == vy * vy + 2.0 * g * vy + g * g;
  }

  /** One tick of gravity keeps the player valid. */
  lemma IntegrateKeepsOk(p: Player, c: LevelConfig)
    requires PlayerOk(p) && InTable(c)
    ensures PlayerOk(Integrate(p, c))
  {
    var g := c.gravity;
    var vy := p.vy + g;
    var y := p.y + vy;
    if y < StandY {
      assert !p.onGround;
      if vy < 0.0 {
        ClimbBoundStep(p.y, p.vy, g);
        var q := Integrate(p, c);
        assert q.y == y && q.vy == vy;
        assert FlightBound(q);
        assert vy * vy / (2.0 * MinGravity) >= 0.0;
      }
    }
  }

  /** A full physics tick, jump decision included, keeps the player valid. */
  lemma MoveKeepsOk(p: Player, c: LevelConfig, jump: bool)
    requires PlayerOk(p) && InTable(c)
    ensures PlayerOk(Integrate(if jump then Jump(p, c) else p, c))
  {
    if jump {
      JumpKeepsOk(p, c);
      IntegrateKeepsOk(Jump(p, c), c);
    } else {
      IntegrateKeepsOk(p, c);
    }
  }

  /** Holding jump in the air gives the same tick as not holding it. */
  lemma HeldJumpInAirIsGravityOnly(p: Player, c: LevelConfig)
    requires !p.onGround
    ensures Integrate(Jump(p, c), c) == Integrate(p, c)
  {
  }

  /** Level 2, from the ground with jump held: vy = -12.5 + 0.7 = -11.8 and the player is airborne. */
  lemma LevelTwoTakeOff()
    ensures Integrate(Jump(Standing, Level2), Level2) == Player(StandY - 11.8, -11.8, false)
  {
  }
}

=== FILE: random.dfy ===
/**
 * The engine's integer draw `rand(min, max)`, with the host's uniform
 * random number made an explicit argument `r` (a value in [0, 1)).
 */
module Random {

  /** A uniform draw from the integers `lo..hi`, both ends included. */
  function Rand(r: real, lo: int, hi: int): (v: int)
    ensures 0.0 <= r < 1.0 && lo <= hi ==> lo <= v <= hi
  {
    var n := (hi - lo + 1) as real;
    ScaledDrawBounds(r, n);
    (r * n).Floor + lo
  }

  /** A draw in [0, 1) scaled by a positive width stays below that width. */
  lemma ScaledDrawBounds(r: real, n: real)
    ensures 0.0 <= r < 1.0 && n > 0.0 ==> 0.0 <= r * n < n
  {
    if 0.0 <= r < 1.0 && n > 0.0 {
      assert n - r * n == (1.0 - r) * n;
    }
  }

  /** Every integer of `lo..hi` is the outcome of some draw in [0, 1). */
  lemma RandReachesEveryValue(lo: int, hi: int, k: int)
    requires lo <= k <= hi
    ensures var r := (k - lo) as real / (hi - lo + 1) as real;
            0.0 <= r < 1.0 && Rand(r, lo, hi) == k
  {
    var n := (hi - lo + 1) as real;
    var a := (k - lo) as real;
    var r := a / n;
    assert 0.0 <= a < n;
    QuotientBelowOne(a, n);
    assert r * n == a;
    assert a.Floor == k - lo;
  }

  lemma QuotientBelowOne(a: real, n: real)
    requires 0.0 <= a < n
    ensures 0.0 <= a / n < 1.0 && a / n * n == a
  {
    var q := a / n;
    assert q * n == a;
    assert (1.0 - q) * n == n - a;
  }

  /** A larger draw never gives a smaller value. */
  lemma RandMonotone(r1: real, r2: real, lo: int, hi: int)
    requires r1 <= r2 && lo <= hi
    ensures Rand(r1, lo, hi) <= Rand(r2, lo, hi)
  {
    var n := (hi - lo + 1) as real;
    var x1, x2 := r1 * n, r2 * n;
    assert x2 - x1 == (r2 - r1) * n;
    NonNegativeProduct(r2 - r1, n);
    FloorMonotone(x1, x2);
  }

  lemma NonNegativeProduct(a: real, b: real)
    requires a >= 0.0 && b >= 0.0
    ensures a * b >= 0.0
  {
  }

  lemma FloorMonotone(x: real, y: real)
    requires x <= y
    ensures x.Floor <= y.Floor
  {
    assert x.Floor as real <= x;
    assert y < y.Floor as real + 1.0;
    assert (x.Floor as real) < (y.Floor as real) + 1.0;
  }

  /**
   * The draw splits evenly: value k comes from exactly the draws in
   * [(k - lo) / n, (k - lo + 1) / n), an interval of width 1/n for each of
   * the n values.
   */
  lemma RandUniform(r: real, lo: int, hi: int, k: int)
    requires lo <= hi && 0.0 <= r < 1.0
    ensures var n := (hi - lo + 1) as real;
      Rand(r, lo, hi) == k <==> (k - lo) as real / n <= r < (k - lo + 1) as real / n
  {
    var n := (hi - lo + 1) as real;
    var a := (k - lo) as real;
    assert (r * n).Floor == k - lo <==> a <= r * n < a + 1.0;
    ScaleCompare(a, n, r);
    ScaleCompare(a + 1.0, n, r);
    assert (k - lo + 1) as real == a + 1.0;
  }

  /** Comparing a draw with a / n is comparing the scaled draw with a. */
  lemma ScaleCompare(a: real, n: real, r: real)
    requires n > 0.0
    ensures a / n <= r <==> a <= r * n
    ensures r < a / n <==> r * n < a
  {
    var q := a / n;
    assert q * n == a;
    assert r * n - a == (r - q) * n;
  }
}
